=== FILE: README.md ===
# Recent-tracks cache and track normalization

A Dafny model of the core of a small Go service that serves a user's recently
played Last.fm tracks as JSON. Two parts are modelled:

- **Track normalization** (`internal/lastfm.go`): a decoded Last.fm `<track>`
  record becomes a `FriendlyTrack` — title, artist and album copied, the `uts`
  epoch string parsed as a base-10 int64 with the parse error ignored, artwork
  picked by the size priority `extralarge`, `large`, `medium`, `small`, and
  the now-playing flag derived from the `nowplaying` attribute. A decoded
  response becomes a `FriendlyRecentTracks` list in the same order with its
  count.
- **The snapshot cache** (`getCachedRecentTracks` in `main.go`): a state
  machine over the stored snapshot and the time it was stored. A call whose
  clock reading is less than five seconds after the stored time serves the
  snapshot marked `Cached`; any other call asks upstream once, stores the
  result on success, and leaves the cache untouched on failure. The
  `/recent-tracks` handler's `limit` guard sits in front of it.

Modules: `Wrappers` (Option, Result), `Strconv` (Go's `strconv.ParseInt`,
`ParseUint` and `Atoi` for base 10 and 64 bits, with reference definitions of
a decimal literal and its value), `LastFm`, `TrackCache` and
`RecentTracksHandler`.

Abstractions: the HTTP fetch and XML decoding are an oracle
`Upstream = int -> Result<LastFmResponse, FetchError>` from the requested
limit to its answer; `time.Now` is an integer clock in nanoseconds passed to
each call; each whole call is one atomic step, covering the read-locked
freshness check (main.go:103-111), the unlocked fetch (main.go:113) and the
write-locked store (main.go:118-121). Go's `(value, error)` returns are kept as pairs
(`NumResult`, `TracksReply`) so that "the zero value plus the error" is
visible.

Behaviour of the code that is easy to misread, and that the model keeps:

- A `uts` literal outside int64 gives the int64 maximum or minimum:
  `strconv.ParseInt` returns the clamped bound together with a range error,
  and the error is discarded (internal/lastfm.go:68). Go's digit loop
  reports a uint64 overflow (leading digits above 18446744073709551615)
  before it reaches a later bad character, so `"99999999999999999999x"`
  gives the int64 maximum, while `"9999999999999999999x"` gives 0
  (`Strconv.ParseIntOfMalformed`). Every other malformed string gives 0.
- The artwork rule looks only at the first image of each size: if that image's
  URL is empty the size is skipped, even when a later image of the same size
  has a URL (internal/lastfm.go:73-81).
- The initial `lastCacheTime` is Go's zero `time.Time`; `now.Sub` of it
  saturates to the maximum duration, so the first call always fetches
  (main.go:19,105).
- The `limit` guard forwards zero and negative limits; only values above 50,
  non-numeric values and values outside int64 are rejected (main.go:66-82).
- After a failed fetch the handler writes an empty JSON list
  (`EmptyAfterFailure`, main.go:84-88).

## Model

| member | source | states |
|---|---|---|
| Strconv.ParseInt | internal/lastfm.go:68 | the parsed epoch is always within int64, and a syntax error always comes with value 0 |
| Strconv.ScanDigits | internal/lastfm.go:68 | Go's ParseUint digit loop, started from an accumulator within uint64, yields a value within uint64 |
| Strconv.ParseUint | internal/lastfm.go:68 | the unsigned parse that ParseInt calls yields a value within uint64 |
| Strconv.Atoi | main.go:70 | the `limit` parser succeeds exactly on decimal literals inside int64, and then yields the literal's value |
| Strconv.ParseUintMeaning | internal/lastfm.go:68 | the digit-by-digit parser equals the reference reading: syntax error for empty input or a non-digit, range error as soon as the leading digits exceed uint64, otherwise the decimal value |
| Strconv.ParseIntOfLiteral | internal/lastfm.go:68 | an optionally signed decimal literal inside int64 parses to exactly its value with no error |
| Strconv.ParseIntClamps | internal/lastfm.go:68 | a decimal literal above or below int64 gives the maximum or minimum int64 with a range error |
| Strconv.ParseIntOfMalformed | internal/lastfm.go:68 | a string that is not a decimal literal gives 0 with a syntax error, unless its leading digits already exceed uint64, in which case it clamps by its sign |
| Strconv.ParseIntSucceedsIff | main.go:70-75 | parsing succeeds exactly on decimal literals inside int64, and then yields the literal's value |
| LastFm.EpochOf | internal/lastfm.go:68 | the played-at time lies in int64 and equals the literal's value whenever `uts` is an in-range decimal literal |
| LastFm.EpochOfMeaning | internal/lastfm.go:68 | out-of-range literals clamp to the int64 bounds; malformed `uts` whose leading digits do not exceed uint64 gives 0 |
| LastFm.FirstOfSize | internal/lastfm.go:73-78 | the inner loop finds the first image tagged with the size at or after the start, or reports that none is tagged with it |
| LastFm.ArtworkFrom | internal/lastfm.go:72-82 | the outer loop from a given size yields either the empty string or the URL of one of the track's images |
| LastFm.SelectArtwork | internal/lastfm.go:70-82 | the artwork is either empty or the URL of one of the track's images |
| LastFm.PickArtwork | internal/lastfm.go:70-82 | the nested loops with their early exits compute the same URL as the functional selection |
| LastFm.FirstOfSizeMeaning | internal/lastfm.go:73-78 | a size is usable exactly when its first image exists and has a non-empty URL |
| LastFm.ArtworkFromMeaning | internal/lastfm.go:72-82 | from a given size on, the loop returns empty exactly when no later size is usable, and otherwise the first image URL of the earliest usable size |
| LastFm.ArtworkChoiceUnique | internal/lastfm.go:70-82 | the artwork policy determines at most one URL |
| LastFm.SelectArtworkIsChoice | internal/lastfm.go:70-82 | a URL meets the artwork policy (most preferred usable size, its first image; else empty) if and only if it is the selected artwork |
| LastFm.LargeWinsWithoutExtraLarge | internal/lastfm.go:70-82 | with no extralarge image, a large first image with a URL is chosen over medium and small |
| LastFm.NoArtworkWithoutUsableSize | internal/lastfm.go:71-81 | when no preferred size has a first image with a URL, the artwork is empty |
| LastFm.ConvertToFriendlyTrack | internal/lastfm.go:67-92 | title, artist and album are the record's names unchanged; now playing holds exactly when the attribute is "true"; the epoch is in int64; the artwork is empty or one of the record's image URLs |
| LastFm.ConvertToFriendlyTrackMeaning | internal/lastfm.go:67-92 | the converted artwork meets the artwork policy and the epoch is the `uts` literal's value when it is in range, or 0 for malformed `uts` whose leading digits do not exceed uint64 |
| LastFm.ConvertTracks | internal/lastfm.go:130-133 | the append loop yields one converted track per decoded track, position by position |
| LastFm.GetRecentTracksWithFriendlyFormat | internal/lastfm.go:124-139 | a failed fetch gives the zero value and the error; a decoded response gives the converted tracks in order, a count equal to their number, and not marked cached |
| LastFm.ThreeTrackScenario | internal/lastfm.go:124-139 | three records played at 100, 200 and 300 with only the middle one playing normalize to three tracks in order with those times and that flag |
| TrackCache.Sub | main.go:105 | the elapsed duration is the plain difference when that fits in int64 and otherwise saturates to the bound of its sign; since the zero time it is the maximum |
| TrackCache.FreshIff | main.go:20-105 | a snapshot stored at t0 is served exactly while now - t0 is below five seconds |
| TrackCache.GetCachedRecentTracks | main.go:102-124 | a fresh hit returns the snapshot marked cached with no fetch and no state change; otherwise exactly one fetch with the requested limit; failure returns the zero value and error and keeps the state; success returns and stores the normalized tracks, with a count equal to their number, stamped with the pre-fetch clock; the stored snapshot stays unmarked |
| TrackCache.Run | main.go:102-124 | over any sequence of calls there is one reply per call, no more upstream calls than calls, and the stored snapshot stays unmarked with a matching count |
| TrackCache.FirstCallMisses | main.go:19-105 | the first call of the process asks upstream whatever the clock reads |
| TrackCache.HitIgnoresLimit | main.go:102-110 | on a fresh snapshot the requested limit and the upstream do not affect the outcome |
| TrackCache.RunWithinWindow | main.go:103-110 | every call within five seconds of the stored time is served from the snapshot, with no upstream call and no state change |
| TrackCache.RefreshThenServe | main.go:104-123 | after a successful refresh, calls within the window return exactly the refreshed value marked cached |
| TrackCache.FailureRetriesNextCall | main.go:113-116 | a failed refresh does not reset the age, so a later call fetches again |
| TrackCache.StoredSnapshotNeverCached | main.go:106-119 | from process start, the stored snapshot is never marked cached |
| RecentTracksHandler.ParseLimit | main.go:66-82 | a forwarded limit is at most 50; only a non-empty parameter is rejected |
| RecentTracksHandler.ParseLimitMeaning | main.go:66-82 | an empty parameter defaults to 10; an int64 decimal literal up to 50 is forwarded as its value; above 50 is rejected as too high; anything else is rejected as invalid |
| RecentTracksHandler.HandleRecentTracks | main.go:62-96 | a rejected limit touches neither cache nor upstream; an accepted limit reaches the cache: a fresh snapshot is served marked cached with no state change, a stale one makes exactly one upstream call with that limit (10 when the parameter is empty); a failed fetch sends the empty list and leaves the cache unchanged; a successful fetch sends the normalized tracks, not marked cached, and the cache now holds them |

## Left out

- The query lookup `r.URL.Query().Get("limit")` (main.go:66): percent-decoding, taking the first of repeated values, and treating an absent parameter like an empty one; the model starts from that decoded first value.
- The HTTP request to Last.fm, its query encoding and status check, and the XML decoding (internal/lastfm.go:94-122): the fetch is an oracle returning a decoded response or one of three errors.
- `sync.RWMutex` and concurrency: each whole call is one atomic step, so no other call runs between its freshness check, its unlocked fetch and its store. Two interleavings the code allows are therefore not modelled: calls that miss at the same time each fetching upstream, and a slower fetch storing its older `now` and older tracks over a newer snapshot.
- `time.Now` and wall-clock arithmetic: the clock is an integer parameter; the zero time is a separate value whose distance to any reading saturates.
- After a failed fetch the code only logs status 500 (main.go:85-87). The empty JSON list is written with Go's implicit status 200. The model records this outcome as `EmptyAfterFailure` and leaves out the status line.
- JSON encoding, response headers, request logging, environment configuration and `ListenAndServe`.
- 32-bit platforms: `Atoi` is modelled as `ParseInt` with 64 bits, assuming a 64-bit `int`; Go's fast path for inputs shorter than 19 bytes gives the same results.
- Go strings are bytes and the model's are characters; only ASCII digits and signs matter to the parser, so every other character is simply a non-digit.

=== FILE: cache.dfy ===
/**
 * The recent-tracks snapshot cache of the server (`getCachedRecentTracks` in
 * main.go) as a sequential state machine. The state is the stored snapshot
 * and the time it was stored; each call reads an abstract clock (nanoseconds)
 * and either serves the snapshot or asks the upstream oracle exactly once.
 * The whole call is one atomic step: the read-locked freshness check, the
 * unlocked fetch and the write-locked store happen with no other call in
 * between.
 */
module TrackCache {
  import opened Wrappers
  import opened LastFm

  const Second: int := 1_000_000_000

  /** How long a stored snapshot is served without asking upstream. */
  const CacheDuration: int := 5 * Second

  /** Bounds of Go's `time.Duration`, an int64 count of nanoseconds. */
  const MaxDuration: int := 0x7fff_ffff_ffff_ffff
  const MinDuration: int := -0x8000_0000_0000_0000

  /**
   * A time value: Go's zero `time.Time` (year 1, the initial `lastCacheTime`)
   * or a clock reading in nanoseconds.
   */
  datatype Instant = ZeroTime | Reading(nanos: int)

  /**
   * `now.Sub(t)`: the elapsed duration, saturated to the int64 range as Go
   * does. Any clock reading is far more than 292 years after year 1, so the
   * duration since the zero time is the maximum duration.
   */
  function Sub(now: int, t: Instant): (d: int)
    ensures MinDuration <= d <= MaxDuration
    ensures t.Reading? && MinDuration <= now - t.nanos <= MaxDuration ==> d == now - t.nanos
    ensures t.Reading? && now - t.nanos > MaxDuration ==> d == MaxDuration
    ensures t.Reading? && now - t.nanos < MinDuration ==> d == MinDuration
    ensures t.ZeroTime? ==> d == MaxDuration
  {
    match t
    case ZeroTime => MaxDuration
    case Reading(u) =>
      if now - u > MaxDuration then MaxDuration
      else if now - u < MinDuration then MinDuration
      else now - u
  }

  /** The freshness test of the read-locked section. */
  predicate IsFresh(now: int, lastCacheTime: Instant) {
    Sub(now, lastCacheTime) < CacheDuration
  }

  /** A snapshot stored at `t0` is fresh exactly while less than the cache duration has passed. */
  lemma FreshIff(now: int, t0: int)
    ensures IsFresh(now, Reading(t0)) <==> now - t0 < CacheDuration
  {
  }

  /** The package-level cache variables. */
  datatype CacheState = CacheState(cachedTracks: FriendlyRecentTracks, lastCacheTime: Instant)

  /** Both variables hold their Go zero values when the process starts. */
  const InitialState := CacheState(ZeroRecentTracks, ZeroTime)

  /** The stored snapshot is never marked as served from cache, and its count matches its list. */
  predicate SnapshotWellFormed(s: CacheState) {
    !s.cachedTracks.cached && s.cachedTracks.totalTracks == |s.cachedTracks.tracks|
  }

  /** The upstream fetch and decode, as an oracle from the requested limit to its answer. */
  type Upstream = int -> Result<LastFmResponse, FetchError>

  /** The new cache state, the `(tracks, err)` returned, and the limits sent upstream. */
  datatype CallOutcome = CallOutcome(state: CacheState, reply: TracksReply, upstreamCalls: seq<int>)

  function GetCachedRecentTracks(s: CacheState, now: int, limit: int, upstream: Upstream): (o: CallOutcome)
    // A fresh snapshot is served as a copy marked cached; nothing else happens.
    ensures IsFresh(now, s.lastCacheTime) ==>
      && o.state == s
      && o.upstreamCalls == []
      && o.reply == TracksReply(s.cachedTracks.(cached := true), None)
    // Otherwise upstream is asked exactly once, with the requested limit.
    ensures !IsFresh(now, s.lastCacheTime) ==> o.upstreamCalls == [limit]
    // A failed fetch returns the zero value and the error and leaves the cache as it was.
    ensures !IsFresh(now, s.lastCacheTime) && upstream(limit).Failure? ==>
      && o.state == s
      && o.reply == TracksReply(ZeroRecentTracks, Some(upstream(limit).error))
    // A successful fetch returns the normalized response and stores it, stamped with `now`.
    ensures !IsFresh(now, s.lastCacheTime) && upstream(limit).Success? ==>
      var raw := upstream(limit).value.recentTracks.tracks;
      && o.reply.err == None
      && !o.reply.value.cached
      && |o.reply.value.tracks| == |raw|
      && o.reply.value.totalTracks == |raw|
      && (forall i :: 0 <= i < |raw| ==> o.reply.value.tracks[i] == ConvertToFriendlyTrack(raw[i]))
      && o.state == CacheState(o.reply.value, Reading(now))
    ensures SnapshotWellFormed(s) ==> SnapshotWellFormed(o.state)
  {
    if IsFresh(now, s.lastCacheTime) then
      CallOutcome(s, TracksReply(s.cachedTracks.(cached := true), None), [])
    else
      var fetched := GetRecentTracksWithFriendlyFormat(upstream(limit));
      if fetched.err.Some? then
        CallOutcome(s, TracksReply(ZeroRecentTracks, fetched.err), [limit])
      else
        CallOutcome(CacheState(fetched.value, Reading(now)), fetched, [limit])
  }

  // ---------------------------------------------------------------------------
  // Sequences of calls.

  /** One call: the clock reading, the requested limit, and what upstream would answer then. */
  datatype Request = Request(now: int, limit: int, upstream: Upstream)

  datatype RunOutcome = RunOutcome(state: CacheState, replies: seq<TracksReply>, upstreamCalls: seq<int>)

  /** The calls one after another, each seeing the state the previous one left. */
  function Run(s: CacheState, requests: seq<Request>): (r: RunOutcome)
    ensures |r.replies| == |requests|
    ensures |r.upstreamCalls| <= |requests|
    ensures SnapshotWellFormed(s) ==> SnapshotWellFormed(r.state)
    decreases |requests|
  {
    if requests == [] then RunOutcome(s, [], [])
    else
      var q := requests[0];
      var first := GetCachedRecentTracks(s, q.now, q.limit, q.upstream);
      var rest := Run(first.state, requests[1..]);
      RunOutcome(rest.state, [first.reply] + rest.replies, first.upstreamCalls + rest.upstreamCalls)
  }

  /** The very first call of the process always asks upstream, whatever the clock reads. */
  lemma FirstCallMisses(now: int, limit: int, upstream: Upstream)
    ensures GetCachedRecentTracks(InitialState, now, limit, upstream).upstreamCalls == [limit]
  {
  }

  /** On a fresh snapshot the requested limit and the upstream make no difference. */
  lemma HitIgnoresLimit(s: CacheState, now: int, limit1: int, limit2: int, up1: Upstream, up2: Upstream)
    requires IsFresh(now, s.lastCacheTime)
    ensures GetCachedRecentTracks(s, now, limit1, up1) == GetCachedRecentTracks(s, now, limit2, up2)
  {
  }

  /**
   * Within the cache duration after a snapshot was stored at `t0`, every
   * call is served from the snapshot: no upstream call, no state change,
   * and each reply is the snapshot marked cached.
   */
  lemma {:induction false} RunWithinWindow(s: CacheState, t0: int, requests: seq<Request>)
    requires s.lastCacheTime == Reading(t0)
    requires forall i :: 0 <= i < |requests| ==> requests[i].now - t0 < CacheDuration
    ensures Run(s, requests).state == s
    ensures Run(s, requests).upstreamCalls == []
    ensures forall i :: 0 <= i < |requests| ==>
      Run(s, requests).replies[i] == TracksReply(s.cachedTracks.(cached := true), None)
    decreases |requests|
  {
    if requests != [] {
      FreshIff(requests[0].now, t0);
      RunWithinWindow(s, t0, requests[1..]);
    }
  }

  /**
   * After a successful refresh at `t0`, later calls inside the window all
   * serve exactly what that refresh returned, now marked cached.
   */
  lemma RefreshThenServe(s: CacheState, t0: int, limit: int, upstream: Upstream, requests: seq<Request>)
    requires !IsFresh(t0, s.lastCacheTime) && upstream(limit).Success?
    requires forall i :: 0 <= i < |requests| ==> requests[i].now - t0 < CacheDuration
    ensures var refreshed := GetCachedRecentTracks(s, t0, limit, upstream);
      forall i :: 0 <= i < |requests| ==>
        Run(refreshed.state, requests).replies[i] == TracksReply(refreshed.reply.value.(cached := true), None)
  {
    var refreshed := GetCachedRecentTracks(s, t0, limit, upstream);
    RunWithinWindow(refreshed.state, t0, requests);
  }

  /**
   * A failed refresh does not reset the age: with a clock that does not go
   * backwards, the next call asks upstream again.
   */
  lemma FailureRetriesNextCall(s: CacheState, now1: int, limit1: int, up1: Upstream,
                               now2: int, limit2: int, up2: Upstream)
    requires !IsFresh(now1, s.lastCacheTime) && up1(limit1).Failure?
    requires now1 <= now2
    ensures var after := GetCachedRecentTracks(s, now1, limit1, up1).state;
      GetCachedRecentTracks(after, now2, limit2, up2).upstreamCalls == [limit2]
  {
  }

  /** The stored snapshot is never marked cached, whatever calls the process has served. */
  lemma StoredSnapshotNeverCached(requests: seq<Request>)
    ensures !Run(InitialState, requests).state.cachedTracks.cached
  {
  }
}

=== FILE: handler.dfy ===
/**
 * The `/recent-tracks` handler of main.go: the `limit` query parameter guard
 * and its composition with the snapshot cache. Writing the response, its
 * headers and the request log are not modelled; the response is the value
 * the handler decides to send.
 */
module RecentTracksHandler {
  import Strconv
  import opened LastFm
  import TrackCache

  /** The limit used when the query has no `limit` (or an empty one). */
  const DefaultLimit: int := 10

  /** The largest accepted limit. */
  const MaxLimit: int := 50

  const InvalidLimitMessage: string := "Invalid limit parameter"
  const LimitTooHighMessage: string := "Limit is too high (>50)"

  /** Either the limit to forward to the cache or a 400 response with its message. */
  datatype LimitDecision = UseLimit(limit: int) | RejectLimit(message: string)

  /**
   * The guard on the raw query value. A forwarded limit is never above the
   * maximum; zero and negative limits are forwarded unchanged.
   */
  function ParseLimit(param: string): (d: LimitDecision)
    ensures d.UseLimit? ==> Strconv.MinInt64 <= d.limit <= MaxLimit
    ensures d.RejectLimit? ==> param != ""
  {
    if param == "" then UseLimit(DefaultLimit)
    else
      var parsed := Strconv.Atoi(param);
      if parsed.err.Some? then RejectLimit(InvalidLimitMessage)
      else if parsed.value > MaxLimit then RejectLimit(LimitTooHighMessage)
      else UseLimit(parsed.value)
  }

  /**
   * The guard against the reference reading of the parameter: the default for
   * an empty value, the literal's value for a decimal literal in [MinInt64, 50],
   * "too high" for a larger int64 literal, and "invalid" for everything else.
   */
  lemma ParseLimitMeaning(param: string)
    ensures param == "" ==> ParseLimit(param) == UseLimit(DefaultLimit)
    ensures param != "" && Strconv.IsDecimalLiteral(param) &&
            Strconv.MinInt64 <= Strconv.LiteralValue(param) <= MaxLimit ==>
      ParseLimit(param) == UseLimit(Strconv.LiteralValue(param))
    ensures param != "" && Strconv.IsDecimalLiteral(param) &&
            MaxLimit < Strconv.LiteralValue(param) <= Strconv.MaxInt64 ==>
      ParseLimit(param) == RejectLimit(LimitTooHighMessage)
    ensures param != "" &&
            !(Strconv.IsDecimalLiteral(param) &&
              Strconv.MinInt64 <= Strconv.LiteralValue(param) <= Strconv.MaxInt64) ==>
      ParseLimit(param) == RejectLimit(InvalidLimitMessage)
  {
    Strconv.ParseIntSucceedsIff(param);
  }

  /** What the handler sends: a 400 with a message, the empty list after a failed fetch, or the tracks. */
  datatype Response = BadRequest(message: string) | EmptyAfterFailure | Served(tracks: FriendlyRecentTracks)

  datatype HandlerOutcome = HandlerOutcome(
    state: TrackCache.CacheState,
    response: Response,
    upstreamCalls: seq<int>)

  /** One request to `/recent-tracks` with the raw `limit` value, at clock reading `now`. */
  function HandleRecentTracks(s: TrackCache.CacheState, now: int, limitParam: string,
                              upstream: TrackCache.Upstream): (h: HandlerOutcome)
    // A rejected limit reaches neither the cache nor upstream.
    ensures ParseLimit(limitParam).RejectLimit? ==>
      h == HandlerOutcome(s, BadRequest(ParseLimit(limitParam).message), [])
    // Only limits of at most the maximum are ever sent upstream.
    ensures forall i :: 0 <= i < |h.upstreamCalls| ==> h.upstreamCalls[i] <= MaxLimit
    ensures |h.upstreamCalls| <= 1
    ensures h.response.EmptyAfterFailure? ==> h.state == s
    // An accepted limit reaches the cache: a fresh snapshot is served as is,
    // a stale one makes exactly one upstream call with that limit.
    ensures ParseLimit(limitParam).UseLimit? && TrackCache.IsFresh(now, s.lastCacheTime) ==>
      h == HandlerOutcome(s, Served(s.cachedTracks.(cached := true)), [])
    ensures ParseLimit(limitParam).UseLimit? && !TrackCache.IsFresh(now, s.lastCacheTime) ==>
      h.upstreamCalls == [ParseLimit(limitParam).limit]
    // A failed fetch sends the empty list and leaves the cache as it was.
    ensures ParseLimit(limitParam).UseLimit? && !TrackCache.IsFresh(now, s.lastCacheTime) &&
            upstream(ParseLimit(limitParam).limit).Failure? ==>
      h == HandlerOutcome(s, EmptyAfterFailure, [ParseLimit(limitParam).limit])
    // A successful fetch sends the freshly normalized tracks, which the cache now holds.
    ensures ParseLimit(limitParam).UseLimit? && !TrackCache.IsFresh(now, s.lastCacheTime) &&
            upstream(ParseLimit(limitParam).limit).Success? ==>
      var o := TrackCache.GetCachedRecentTracks(s, now, ParseLimit(limitParam).limit, upstream);
      && h.response == Served(o.reply.value)
      && h.state == o.state
      && !h.response.tracks.cached
    ensures TrackCache.SnapshotWellFormed(s) ==>
      && TrackCache.SnapshotWellFormed(h.state)
      && (h.response.Served? ==> h.response.tracks.totalTracks == |h.response.tracks.tracks|)
  {
    match ParseLimit(limitParam)
    case RejectLimit(message) => HandlerOutcome(s, BadRequest(message), [])
    case UseLimit(limit) =>
      var o := TrackCache.GetCachedRecentTracks(s, now, limit, upstream);
      if o.reply.err.Some? then HandlerOutcome(o.state, EmptyAfterFailure, o.upstreamCalls)
      else HandlerOutcome(o.state, Served(o.reply.value), o.upstreamCalls)
  }
}

=== FILE: lastfm.dfy ===
/**
 * The Last.fm client of the service (internal/lastfm.go): the decoded
 * upstream records, their normalized "friendly" form, and the conversion
 * between the two. The HTTP request and the XML decoding are an oracle: the
 * caller hands in either the decoded response or the fetch error.
 */
module LastFm {
  import opened Wrappers
  import Strconv

  // ---------------------------------------------------------------------------
  // Decoded upstream response.

  /** An artist or album: the element's text and its MusicBrainz id attribute. */
  datatype NamedRef = NamedRef(name: string, mbid: string)

  /** The `<date>` element: display text and the `uts` epoch attribute, still a string. */
  datatype PlayDate = PlayDate(text: string, uts: string)

  /** One `<image>` element: its `size` attribute and URL text. */
  datatype Image = Image(size: string, url: string)

  datatype LastFmTrack = LastFmTrack(
    nowPlaying: string,
    artist: NamedRef,
    name: string,
    album: NamedRef,
    url: string,
    date: PlayDate,
    images: seq<Image>,
    streamable: string,
    mbid: string)

  datatype LastFmRecentTracks = LastFmRecentTracks(
    user: string,
    page: string,
    perPage: string,
    totalPages: string,
    total: string,
    tracks: seq<LastFmTrack>)

  datatype LastFmResponse = LastFmResponse(status: string, recentTracks: LastFmRecentTracks)

  /** Why a fetch failed: the request itself, a non-200 status, or undecodable XML. */
  datatype FetchError = RequestError | StatusError(code: int) | XmlError

  // ---------------------------------------------------------------------------
  // Normalized form served to clients.

  datatype FriendlyTrack = FriendlyTrack(
    title: string,
    artist: string,
    album: string,
    epochTimePlayed: int,
    artworkUrl: string,
    isCurrentlyPlaying: bool)

  datatype FriendlyRecentTracks = FriendlyRecentTracks(
    tracks: seq<FriendlyTrack>,
    totalTracks: int,
    cached: bool)

  /** Go's zero value `FriendlyRecentTracks{}`. */
  const ZeroRecentTracks := FriendlyRecentTracks([], 0, false)

  /** Go's `(FriendlyRecentTracks, error)` result pair. */
  datatype TracksReply = TracksReply(value: FriendlyRecentTracks, err: Option<FetchError>)

  // ---------------------------------------------------------------------------
  // Artwork selection.

  /** Image sizes in order of preference. */
  const ArtworkSizes: seq<string> := ["extralarge", "large", "medium", "small"]

  /** `i` is the position of the first image tagged `size`. */
  ghost predicate IsFirstOfSize(images: seq<Image>, size: string, i: int) {
    0 <= i < |images| && images[i].size == size &&
    forall j :: 0 <= j < i ==> images[j].size != size
  }

  /** The first image tagged `size` exists and has a non-empty URL. */
  ghost predicate SizeUsable(images: seq<Image>, size: string) {
    exists i :: IsFirstOfSize(images, size, i) && images[i].url != ""
  }

  /**
   * The artwork policy: the URL of the first image of the most preferred
   * usable size, or the empty string when no preferred size is usable.
   */
  ghost predicate IsArtworkChoice(images: seq<Image>, url: string) {
    if exists k :: 0 <= k < |ArtworkSizes| && SizeUsable(images, ArtworkSizes[k]) then
      exists k, i ::
        0 <= k < |ArtworkSizes| && IsFirstOfSize(images, ArtworkSizes[k], i) &&
        images[i].url == url && url != "" &&
        forall k' :: 0 <= k' < k ==> !SizeUsable(images, ArtworkSizes[k'])
    else
      url == ""
  }

  /** The inner loop: the position of the first image tagged `size` at or after `from`. */
  function FirstOfSize(images: seq<Image>, size: string, from: nat): (r: Option<nat>)
    requires from <= |images|
    ensures r.Some? ==>
      && from <= r.value < |images|
      && images[r.value].size == size
      && forall j :: from <= j < r.value ==> images[j].size != size
    ensures r.None? ==> forall j :: from <= j < |images| ==> images[j].size != size
    decreases |images| - from
  {
    if from == |images| then None
    else if images[from].size == size then Some(from)
    else FirstOfSize(images, size, from + 1)
  }

  /** The outer loop from size `k` on: the URL chosen at the first size whose first image has one. */
  function ArtworkFrom(images: seq<Image>, k: nat): (url: string)
    requires k <= |ArtworkSizes|
    ensures url == "" || exists i :: 0 <= i < |images| && images[i].url == url
    decreases |ArtworkSizes| - k
  {
    if k == |ArtworkSizes| then ""
    else
      var found := FirstOfSize(images, ArtworkSizes[k], 0);
      var candidate := if found.Some? then images[found.value].url else "";
      if candidate != "" then candidate else ArtworkFrom(images, k + 1)
  }

  /** The artwork URL of a track: the result is empty or one of the track's image URLs. */
  function SelectArtwork(images: seq<Image>): (url: string)
    ensures url == "" || exists i :: 0 <= i < |images| && images[i].url == url
  {
    ArtworkFrom(images, 0)
  }

  /** The size loop as the source writes it, with its `break`s. */
  method PickArtwork(images: seq<Image>) returns (url: string)
    ensures url == SelectArtwork(images)
  {
    url := "";
    var k := 0;
    while k < |ArtworkSizes|
      invariant 0 <= k <= |ArtworkSizes|
      invariant url == ""
      invariant ArtworkFrom(images, k) == SelectArtwork(images)
    {
      var i := 0;
      while i < |images|
        invariant 0 <= i <= |images|
        invariant url == ""
        invariant FirstOfSize(images, ArtworkSizes[k], 0) == FirstOfSize(images, ArtworkSizes[k], i)
      {
        if images[i].size == ArtworkSizes[k] {
          url := images[i].url;
          break;
        }
        i := i + 1;
      }
      if url != "" {
        return;
      }
      k := k + 1;
    }
  }

  /** The declarative reading of the inner loop from the first image. */
  lemma FirstOfSizeMeaning(images: seq<Image>, size: string)
    ensures FirstOfSize(images, size, 0).Some? ==> IsFirstOfSize(images, size, FirstOfSize(images, size, 0).value)
    ensures SizeUsable(images, size) <==>
      FirstOfSize(images, size, 0).Some? && images[FirstOfSize(images, size, 0).value].url != ""
  {
  }

  /** The outer loop from size `k` on picks the most preferred usable size at or after `k`. */
  lemma {:induction false} ArtworkFromMeaning(images: seq<Image>, k: nat)
    requires k <= |ArtworkSizes|
    ensures ArtworkFrom(images, k) == "" <==>
      forall k' :: k <= k' < |ArtworkSizes| ==> !SizeUsable(images, ArtworkSizes[k'])
    ensures ArtworkFrom(images, k) != "" ==>
      exists k', i ::
        k <= k' < |ArtworkSizes| && IsFirstOfSize(images, ArtworkSizes[k'], i) &&
        images[i].url == ArtworkFrom(images, k) &&
        forall k'' :: k <= k'' < k' ==> !SizeUsable(images, ArtworkSizes[k''])
    decreases |ArtworkSizes| - k
  {
    if k < |ArtworkSizes| {
      FirstOfSizeMeaning(images, ArtworkSizes[k]);
      var found := FirstOfSize(images, ArtworkSizes[k], 0);
      if found.Some? && images[found.value].url != "" {
        assert IsFirstOfSize(images, ArtworkSizes[k], found.value);
      } else {
        ArtworkFromMeaning(images, k + 1);
        if ArtworkFrom(images, k) != "" {
          var k', i :| k + 1 <= k' < |ArtworkSizes| && IsFirstOfSize(images, ArtworkSizes[k'], i) &&
            images[i].url == ArtworkFrom(images, k) &&
            forall k'' :: k + 1 <= k'' < k' ==> !SizeUsable(images, ArtworkSizes[k'']);
          assert forall k'' :: k <= k'' < k' ==> !SizeUsable(images, ArtworkSizes[k'']);
        }
      }
    }
  }

  /** At most one URL meets the artwork policy. */
  lemma ArtworkChoiceUnique(images: seq<Image>, u: string, v: string)
    requires IsArtworkChoice(images, u) && IsArtworkChoice(images, v)
    ensures u == v
  {
  }

  /** The selected artwork is exactly the URL the artwork policy describes. */
  lemma SelectArtworkIsChoice(images: seq<Image>, url: string)
    ensures IsArtworkChoice(images, url) <==> url == SelectArtwork(images)
  {
    ArtworkFromMeaning(images, 0);
    var chosen := SelectArtwork(images);
    assert IsArtworkChoice(images, chosen) by {
      if exists k :: 0 <= k < |ArtworkSizes| && SizeUsable(images, ArtworkSizes[k]) {
        assert chosen != "";
      }
    }
    if IsArtworkChoice(images, url) {
      ArtworkChoiceUnique(images, url, chosen);
    }
  }

  /** Without an `extralarge` image, a usable `large` image wins over every smaller size. */
  lemma LargeWinsWithoutExtraLarge(images: seq<Image>, i: int)
    requires forall j :: 0 <= j < |images| ==> images[j].size != "extralarge"
    requires IsFirstOfSize(images, "large", i) && images[i].url != ""
    ensures SelectArtwork(images) == images[i].url
  {
  }

  /** With no usable preferred size, the artwork is empty. */
  lemma NoArtworkWithoutUsableSize(images: seq<Image>)
    requires forall k :: 0 <= k < |ArtworkSizes| ==> !SizeUsable(images, ArtworkSizes[k])
    ensures SelectArtwork(images) == ""
  {
  }

  // ---------------------------------------------------------------------------
  // Conversion.

  /** The played-at time: `uts` parsed as a base-10 int64, the parse error ignored. */
  function EpochOf(uts: string): (t: int)
    ensures Strconv.MinInt64 <= t <= Strconv.MaxInt64
    ensures Strconv.IsDecimalLiteral(uts) && Strconv.MinInt64 <= Strconv.LiteralValue(uts) <= Strconv.MaxInt64
      ==> t == Strconv.LiteralValue(uts)
  {
    Strconv.ParseIntSucceedsIff(uts);
    Strconv.ParseInt(uts).value
  }

  function ConvertToFriendlyTrack(track: LastFmTrack): (f: FriendlyTrack)
    ensures f.title == track.name && f.artist == track.artist.name && f.album == track.album.name
    ensures f.isCurrentlyPlaying <==> track.nowPlaying == "true"
    ensures Strconv.MinInt64 <= f.epochTimePlayed <= Strconv.MaxInt64
    ensures f.artworkUrl == "" || exists i :: 0 <= i < |track.images| && track.images[i].url == f.artworkUrl
  {
    FriendlyTrack(
      track.name,
      track.artist.name,
      track.album.name,
      EpochOf(track.date.uts),
      SelectArtwork(track.images),
      track.nowPlaying == "true")
  }

  /** The played-at time against the reference reading of the `uts` string. */
  lemma EpochOfMeaning(uts: string)
    ensures Strconv.IsDecimalLiteral(uts) && Strconv.LiteralValue(uts) > Strconv.MaxInt64 ==>
      EpochOf(uts) == Strconv.MaxInt64
    ensures Strconv.IsDecimalLiteral(uts) && Strconv.LiteralValue(uts) < Strconv.MinInt64 ==>
      EpochOf(uts) == Strconv.MinInt64
    ensures !Strconv.IsDecimalLiteral(uts) && Strconv.LeadingValue(uts) <= Strconv.MaxUint64 ==>
      EpochOf(uts) == 0
  {
    if Strconv.IsDecimalLiteral(uts) {
      if Strconv.LiteralValue(uts) > Strconv.MaxInt64 || Strconv.LiteralValue(uts) < Strconv.MinInt64 {
        Strconv.ParseIntClamps(uts);
      }
    } else {
      Strconv.ParseIntOfMalformed(uts);
    }
  }

  /** Every field of a converted track, stated against its reference definition. */
  lemma ConvertToFriendlyTrackMeaning(track: LastFmTrack)
    ensures IsArtworkChoice(track.images, ConvertToFriendlyTrack(track).artworkUrl)
    ensures (Strconv.IsDecimalLiteral(track.date.uts) &&
             Strconv.MinInt64 <= Strconv.LiteralValue(track.date.uts) <= Strconv.MaxInt64) ==>
      ConvertToFriendlyTrack(track).epochTimePlayed == Strconv.LiteralValue(track.date.uts)
    ensures !Strconv.IsDecimalLiteral(track.date.uts) && Strconv.LeadingValue(track.date.uts) <= Strconv.MaxUint64 ==>
      ConvertToFriendlyTrack(track).epochTimePlayed == 0
  {
    SelectArtworkIsChoice(track.images, SelectArtwork(track.images));
    EpochOfMeaning(track.date.uts);
  }

  /** The append loop of the source: one friendly track per decoded track, in order. */
  method ConvertTracks(tracks: seq<LastFmTrack>) returns (friendly: seq<FriendlyTrack>)
    ensures |friendly| == |tracks|
    ensures forall i :: 0 <= i < |tracks| ==> friendly[i] == ConvertToFriendlyTrack(tracks[i])
  {
    friendly := [];
    for n := 0 to |tracks|
      invariant |friendly| == n
      invariant forall i :: 0 <= i < n ==> friendly[i] == ConvertToFriendlyTrack(tracks[i])
    {
      friendly := friendly + [ConvertToFriendlyTrack(tracks[n])];
    }
  }

  /**
   * The normalization step after a fetch: a failed fetch gives the zero value
   * and the error; a decoded response gives its tracks converted in order.
   */
  function GetRecentTracksWithFriendlyFormat(fetched: Result<LastFmResponse, FetchError>): (r: TracksReply)
    ensures fetched.Failure? ==> r == TracksReply(ZeroRecentTracks, Some(fetched.error))
    ensures fetched.Success? ==>
      var raw := fetched.value.recentTracks.tracks;
      && r.err == None
      && |r.value.tracks| == |raw|
      && (forall i :: 0 <= i < |raw| ==> r.value.tracks[i] == ConvertToFriendlyTrack(raw[i]))
      && r.value.totalTracks == |raw|
      && !r.value.cached
  {
    match fetched
    case Failure(e) => TracksReply(ZeroRecentTracks, Some(e))
    case Success(response) =>
      var raw := response.recentTracks.tracks;
      var friendly := seq(|raw|, i requires 0 <= i < |raw| => ConvertToFriendlyTrack(raw[i]));
      TracksReply(FriendlyRecentTracks(friendly, |friendly|, false), None)
  }

  /**
   * Three played tracks at 100, 200 and 300, the middle one playing now:
   * three friendly tracks, in order, with those times and only the middle one
   * marked as playing.
   */
  lemma ThreeTrackScenario(a: LastFmTrack, b: LastFmTrack, c: LastFmTrack, response: LastFmResponse)
    requires a.date.uts == "100" && b.date.uts == "200" && c.date.uts == "300"
    requires a.nowPlaying == "" && b.nowPlaying == "true" && c.nowPlaying == "false"
    requires response.recentTracks.tracks == [a, b, c]
    ensures var r := GetRecentTracksWithFriendlyFormat(Success(response));
      && r.err == None
      && r.value.totalTracks == 3
      && [r.value.tracks[0].epochTimePlayed, r.value.tracks[1].epochTimePlayed, r.value.tracks[2].epochTimePlayed]
         == [100, 200, 300]
      && [r.value.tracks[0].isCurrentlyPlaying, r.value.tracks[1].isCurrentlyPlaying, r.value.tracks[2].isCurrentlyPlaying]
         == [false, true, false]
      && [r.value.tracks[0].title, r.value.tracks[1].title, r.value.tracks[2].title] == [a.name, b.name, c.name]
  {
    EpochOfThreeDigits("100");
    EpochOfThreeDigits("200");
    EpochOfThreeDigits("300");
  }

  lemma EpochOfThreeDigits(uts: string)
    requires |uts| == 3 && Strconv.AllDigits(uts)
    ensures EpochOf(uts) ==
      Strconv.DigitValue(uts[0]) * 100 + Strconv.DigitValue(uts[1]) * 10 + Strconv.DigitValue(uts[2])
  {
    assert Strconv.Magnitude(uts) == uts;
    assert uts[..2][..1] == uts[..1];
    assert uts[..1][..0] == [];
    var v := Strconv.DecimalValue(uts);
    assert v == Strconv.DecimalValue(uts[..2]) * 10 + Strconv.DigitValue(uts[2]);
    assert Strconv.DecimalValue(uts[..2]) == Strconv.DecimalValue(uts[..1]) * 10 + Strconv.DigitValue(uts[1]);
    assert Strconv.DecimalValue(uts[..1]) == Strconv.DigitValue(uts[0]);
    assert Strconv.LiteralValue(uts) == v <= Strconv.MaxInt64;
  }
}


=== FILE: strconv.dfy ===
/**
 * Go's `strconv.ParseInt(s, 10, 64)` and `strconv.Atoi` on a 64-bit platform:
 * the parser behind the played-at timestamp of a track and the `limit` query
 * parameter. Go returns a (value, error) pair; both halves are modelled,
 * because the track normalization ignores the error and keeps the value.
 */
module Strconv {
  import opened Wrappers

  const MaxUint64: int := 0xffff_ffff_ffff_ffff
  const MaxInt64: int := 0x7fff_ffff_ffff_ffff
  const MinInt64: int := -0x8000_0000_0000_0000
  const TwoTo64: int := 0x1_0000_0000_0000_0000

  /** Go's `cutoff` in ParseUint: the smallest accumulator whose product with the base overflows. */
  const Cutoff: int := MaxUint64 / 10 + 1

  datatype NumError = ErrSyntax | ErrRange

  /** Go's `(value, err)` result of a number parser. */
  datatype NumResult = NumResult(value: int, err: Option<NumError>)

  predicate IsDigit(c: char) {
    '0' <= c <= '9'
  }

  function DigitValue(c: char): (d: nat)
    requires IsDigit(c)
    ensures d <= 9
  {
    (c as int - '0' as int) as nat
  }

  predicate AllDigits(s: string) {
    forall i :: 0 <= i < |s| ==> IsDigit(s[i])
  }

  /** The value of a string of decimal digits, most significant digit first. */
  function DecimalValue(s: string): (v: nat)
    requires AllDigits(s)
  {
    if s == [] then 0 else DecimalValue(s[..|s| - 1]) * 10 + DigitValue(s[|s| - 1])
  }

  /** The length of the longest prefix of `s` made of decimal digits. */
  function DigitRun(s: string): (k: nat)
    ensures k <= |s|
    ensures AllDigits(s[..k])
    ensures k < |s| ==> !IsDigit(s[k])
  {
    if s == [] || !IsDigit(s[0]) then 0
    else
      var k := 1 + DigitRun(s[1..]);
      assert s[..k] == [s[0]] + s[1..][..k - 1];
      k
  }

  /**
   * Go's two overflow tests in the ParseUint loop for one more digit `d`:
   * `n >= cutoff` (multiplying by ten overflows) or the uint64 sum
   * `n*10 + d` wraps below `n*10` or exceeds the maximum.
   */
  predicate Overflows(n: nat, d: nat) {
    n >= Cutoff || (n * 10 + d) % TwoTo64 < n * 10 || (n * 10 + d) % TwoTo64 > MaxUint64
  }

  /** Go's ParseUint digit loop from accumulator `n` over the rest `s` of the input. */
  function ScanDigits(s: string, n: nat): (r: NumResult)
    requires n <= MaxUint64
    ensures 0 <= r.value <= MaxUint64
  {
    if s == [] then NumResult(n, None)
    else if !IsDigit(s[0]) then NumResult(0, Some(ErrSyntax))
    else if Overflows(n, DigitValue(s[0])) then NumResult(MaxUint64, Some(ErrRange))
    else
      OverflowsMeaning(n, DigitValue(s[0]));
      ScanDigits(s[1..], n * 10 + DigitValue(s[0]))
  }

  /** `strconv.ParseUint(s, 10, 64)`. */
  function ParseUint(s: string): (r: NumResult)
    ensures 0 <= r.value <= MaxUint64
  {
    if s == [] then NumResult(0, Some(ErrSyntax)) else ScanDigits(s, 0)
  }

  /** `strconv.ParseInt(s, 10, 64)`: an optional sign, then ParseUint, then the int64 range check. */
  function ParseInt(s: string): (r: NumResult)
    ensures MinInt64 <= r.value <= MaxInt64
    ensures r.err == Some(ErrSyntax) ==> r.value == 0
  {
    if s == [] then NumResult(0, Some(ErrSyntax))
    else
      var neg := s[0] == '-';
      var body := if s[0] == '+' || s[0] == '-' then s[1..] else s;
      var u := ParseUint(body);
      if u.err == Some(ErrSyntax) then NumResult(0, Some(ErrSyntax))
      else if !neg && u.value >= MaxInt64 + 1 then NumResult(MaxInt64, Some(ErrRange))
      else if neg && u.value > MaxInt64 + 1 then NumResult(MinInt64, Some(ErrRange))
      else if neg then NumResult(-u.value, None)
      else NumResult(u.value, None)
  }

  /** `strconv.Atoi` with a 64-bit `int`: its fast path for short inputs agrees with ParseInt. */
  function Atoi(s: string): (r: NumResult)
    ensures MinInt64 <= r.value <= MaxInt64
    ensures r.err == None <==> IsDecimalLiteral(s) && MinInt64 <= LiteralValue(s) <= MaxInt64
    ensures r.err == None ==> r.value == LiteralValue(s)
  {
    ParseIntSucceedsIff(s);
    ParseInt(s)
  }

  // ---------------------------------------------------------------------------
  // Reference definitions: what a decimal literal is and what it denotes.

  predicate HasSign(s: string) {
    |s| > 0 && (s[0] == '+' || s[0] == '-')
  }

  /** The digits after an optional leading sign. */
  function Magnitude(s: string): (m: string) {
    if HasSign(s) then s[1..] else s
  }

  /** An optionally signed, non-empty run of decimal digits and nothing else. */
  predicate IsDecimalLiteral(s: string) {
    |Magnitude(s)| > 0 && AllDigits(Magnitude(s))
  }

  /** The integer a decimal literal denotes. */
  function LiteralValue(s: string): (v: int)
    requires IsDecimalLiteral(s)
  {
    if |s| > 0 && s[0] == '-' then -(DecimalValue(Magnitude(s)) as int) else DecimalValue(Magnitude(s))
  }

  /** The value of the leading digits of the magnitude, where Go's overflow test looks. */
  function LeadingValue(s: string): (v: nat) {
    var m := Magnitude(s);
    DecimalValue(m[..DigitRun(m)])
  }

  // ---------------------------------------------------------------------------
  // Lemmas connecting the scanning parser to the reference definitions.

  lemma OverflowsMeaning(n: nat, d: nat)
    requires d <= 9
    ensures Overflows(n, d) <==> n * 10 + d > MaxUint64
  {
  }

  lemma {:induction false} DecimalValuePrefix(s: string, i: nat)
    requires AllDigits(s) && i <= |s|
    ensures DecimalValue(s[..i]) <= DecimalValue(s)
    decreases |s|
  {
    if i < |s| {
      var t := s[..|s| - 1];
      assert t[..i] == s[..i];
      DecimalValuePrefix(t, i);
    } else {
      assert s[..i] == s;
    }
  }

  lemma DecimalValueStep(s: string, i: nat)
    requires i < |s| && AllDigits(s[..i + 1])
    ensures AllDigits(s[..i])
    ensures DecimalValue(s[..i + 1]) == DecimalValue(s[..i]) * 10 + DigitValue(s[i])
  {
    assert s[..i + 1][..i] == s[..i];
  }

  /**
   * Scanning from position `i` inside the leading digit run: the scan ends in
   * a range error exactly when the whole run overflows, and otherwise yields
   * the run's value or, when something follows the run, a syntax error.
   */
  lemma {:induction false} ScanFrom(s: string, i: nat)
    requires i <= DigitRun(s)
    requires DecimalValue(s[..i]) <= MaxUint64
    ensures var k := DigitRun(s);
      ScanDigits(s[i..], DecimalValue(s[..i])) ==
        if DecimalValue(s[..k]) > MaxUint64 then NumResult(MaxUint64, Some(ErrRange))
        else if k == |s| then NumResult(DecimalValue(s[..k]), None)
        else NumResult(0, Some(ErrSyntax))
    decreases |s| - i
  {
    var k := DigitRun(s);
    var n := DecimalValue(s[..i]);
    if i == |s| {
      assert s[i..] == [];
    } else if i == k {
      assert s[i..][0] == s[k];
    } else {
      assert s[i..][0] == s[i];
      assert AllDigits(s[..k][..i + 1]);
      assert s[..k][..i + 1] == s[..i + 1];
      DecimalValueStep(s, i);
      OverflowsMeaning(n, DigitValue(s[i]));
      if DecimalValue(s[..i + 1]) > MaxUint64 {
        DecimalValuePrefix(s[..k], i + 1);
      } else {
        assert s[i..][1..] == s[i + 1..];
        ScanFrom(s, i + 1);
      }
    }
  }

  /** ParseUint against the reference reading of its input. */
  lemma ParseUintMeaning(s: string)
    ensures var k := DigitRun(s);
      ParseUint(s) ==
        if s == [] then NumResult(0, Some(ErrSyntax))
        else if DecimalValue(s[..k]) > MaxUint64 then NumResult(MaxUint64, Some(ErrRange))
        else if k == |s| then NumResult(DecimalValue(s), None)
        else NumResult(0, Some(ErrSyntax))
  {
    if s != [] {
      assert s[..0] == [] && s[0..] == s;
      ScanFrom(s, 0);
      if DigitRun(s) == |s| {
        assert s[..|s|] == s;
      }
    }
  }

  /** A well-formed literal inside the int64 range parses to its value without error. */
  lemma ParseIntOfLiteral(s: string)
    requires IsDecimalLiteral(s)
    requires MinInt64 <= LiteralValue(s) <= MaxInt64
    ensures ParseInt(s) == NumResult(LiteralValue(s), None)
  {
    var m := Magnitude(s);
    ParseUintMeaning(m);
    assert m[..|m|] == m;
  }

  /** A well-formed literal outside the int64 range clamps to the nearer bound with a range error. */
  lemma ParseIntClamps(s: string)
    requires IsDecimalLiteral(s)
    requires LiteralValue(s) < MinInt64 || LiteralValue(s) > MaxInt64
    ensures LiteralValue(s) > MaxInt64 ==> ParseInt(s) == NumResult(MaxInt64, Some(ErrRange))
    ensures LiteralValue(s) < MinInt64 ==> ParseInt(s) == NumResult(MinInt64, Some(ErrRange))
  {
    var m := Magnitude(s);
    ParseUintMeaning(m);
    assert m[..|m|] == m;
  }

  /**
   * A string that is not a decimal literal is a syntax error with value 0,
   * unless its leading digits already overflow uint64: Go's loop reports the
   * overflow before it reaches the offending character, and the value clamps.
   */
  lemma ParseIntOfMalformed(s: string)
    requires !IsDecimalLiteral(s)
    ensures LeadingValue(s) <= MaxUint64 ==> ParseInt(s) == NumResult(0, Some(ErrSyntax))
    ensures LeadingValue(s) > MaxUint64 && (|s| == 0 || s[0] != '-') ==>
      ParseInt(s) == NumResult(MaxInt64, Some(ErrRange))
    ensures LeadingValue(s) > MaxUint64 && |s| > 0 && s[0] == '-' ==>
      ParseInt(s) == NumResult(MinInt64, Some(ErrRange))
  {
    var m := Magnitude(s);
    ParseUintMeaning(m);
    assert m[..|m|] == m;
  }

  /** Parsing succeeds exactly on the decimal literals inside the int64 range. */
  lemma ParseIntSucceedsIff(s: string)
    ensures ParseInt(s).err == None <==>
      IsDecimalLiteral(s) && MinInt64 <= LiteralValue(s) <= MaxInt64
    ensures ParseInt(s).err == None ==> ParseInt(s).value == LiteralValue(s)
  {
    if IsDecimalLiteral(s) {
      if MinInt64 <= LiteralValue(s) <= MaxInt64 {
        ParseIntOfLiteral(s);
      } else {
        ParseIntClamps(s);
      }
    } else {
      ParseIntOfMalformed(s);
    }
  }
}

=== FILE: wrappers.dfy ===
/** Small failure-carrying datatypes shared by the other modules. */
module Wrappers {

  /** An optional value; `None` plays the role of Go's nil error. */
  datatype Option<+T> = None | Some(value: T)

  /** Either a value or an error. */
  datatype Result<+T, +E> = Success(value: T) | Failure(error: E)
}
